=== FILE: README.md ===
# EspionAge gameplay bookkeeping, in Dafny

A model of the sequential bookkeeping that sits under the game's engine-driven
scripts. Rendering, physics, animation blending and the camera-blend engine
belong to the host engine and are not modelled; what is modelled is the state
each manager keeps and the guarded transitions on it:

- **Progress registry** (`Progress`, progress.dfy): stamp and bingo-ball
  unlock maps, the latched "all stamps unlocked" flag, and mission statuses.
  Dictionary exceptions (duplicate `Add`, missing-key lookup) become
  `Failure` results. The bingo-ball map is created empty and nothing ever
  fills it from the configured ball list, so no ball can ever be unlocked;
  the model keeps that behaviour and proves it.
- **Interactable respawn pool** (`AutoSpawner`, spawner.dfy): the spawned
  objects in spawn order; each spawn creates a new object identity, and an
  ended interaction with a tracked object replaces it at the end of the list.
- **Interactable proximity machine** (`Interactables`, interactable.dfy): the
  on/off flag driven by player-layer trigger enter/exit, the recorded player,
  the pop-in/pop-down animator triggers, and the frame update in which an
  interaction (face the player, then raise the interaction end) can happen.
- **Stamina bar** (`Stamina`, stamina.dfy): the clamped goal of increase and
  decrease requests and the stepping loop that moves the fill by fixed steps,
  reporting each new fill to subscribers. Fill amounts are reals.
- **Player manager** (`Player`, player.dfy): the FIFO of carried throwables,
  the press/hold/release automaton of the throw button, the per-tick
  awakeness requests, and the throw velocity derived from the stamina fill.
- **Camera manager** (`Cameras`, camera.dfy): the first-writer-wins map of
  default camera distances, the zoom gate, `BlendTo` with its start notices,
  blend completion as an explicit event with its completion notices, and the
  blend to the far partner of the active camera.

Shared pieces: `Wrappers` (Option, Result and the dictionary errors),
`Engine` (object identities, layers, colliders), `Lists` (the List operations
`IndexOf` and `Remove`), and `Mathf` (the engine math helpers the scripts call:
Clamp, Lerp, Approximately, Repeat, PingPong).

Each manager's state is an immutable datatype and each operation a pure
function or a method, so "nothing else changes" is stated directly in the
contracts. Sequences of operations (`Run` in `Progress`, `AutoSpawner`,
`Interactables`, `Player` and `Cameras`) carry the
invariants: the progress registry never relocks a stamp, the respawn pool
keeps its size, the interactable's flag agrees with the last prompt trigger
it set, the
throwable queue is first-in first-out, and recorded camera defaults are never
overwritten.

## Model

| member | source | states |
|---|---|---|
| `Progress.Start` | Assets/Scripts/ProgressManager.cs:28-41 | fails exactly when a stamp is listed twice; otherwise every listed stamp (and nothing else) is registered as locked, the ball and mission maps are empty and the flag is down |
| `Progress.HasUnlockedAllStamps` | Assets/Scripts/ProgressManager.cs:64-67 | true exactly when every registered stamp maps to unlocked |
| `Progress.UnlockStamp` | Assets/Scripts/ProgressManager.cs:44-61 | an unknown stamp changes nothing; a known one becomes unlocked with every other stamp, ball and mission untouched; the flag rises exactly when that unlock completes the set, and never falls |
| `Progress.GetUnlockedStamps` | Assets/Scripts/ProgressManager.cs:71-84 | returns each unlocked stamp exactly once and no locked or unknown stamp |
| `Progress.UnlockBall` | Assets/Scripts/ProgressManager.cs:87-99 | an unknown ball changes nothing; a known one becomes unlocked and nothing else changes |
| `Progress.HasUnlockedBall` | Assets/Scripts/ProgressManager.cs:102-113 | true exactly for a registered ball that is unlocked; an unknown ball reads as locked |
| `Progress.AddMission` | Assets/Scripts/ProgressManager.cs:117-120 | a new mission is registered as Started and nothing else changes; adding a registered mission fails with a duplicate-key error |
| `Progress.UpdateMissionStatus` | Assets/Scripts/ProgressManager.cs:124-133 | an unknown mission changes nothing; a known one gets the new status and every other mission keeps its own |
| `Progress.GetMissionStatus` | Assets/Scripts/ProgressManager.cs:135-138 | succeeds exactly for a registered mission, with its status; otherwise fails with key-not-found |
| `Progress.UnlockStampIdempotent` | Assets/Scripts/ProgressManager.cs:53 | unlocking the same stamp twice equals unlocking it once |
| `Progress.UnlockStampGrowsUnlockedSet` | Assets/Scripts/ProgressManager.cs:44-61 | unlocking a known stamp adds exactly that stamp to the unlocked set; an unknown stamp adds nothing |
| `Progress.AllUnlockedIffUnlockedSetIsEverything` | Assets/Scripts/ProgressManager.cs:64-84 | all stamps are unlocked exactly when the unlocked set is the whole registered set |
| `Progress.MissionReadBack` | Assets/Scripts/ProgressManager.cs:117-138 | a mission reads back Started after being added and the new status after an update; updating one mission does not change how another reads |
| `Progress.ApplyStep` | Assets/Scripts/ProgressManager.cs:44-133 | each registry call keeps the latched flag truthful and the ball map empty, keeps the stamp keys, never relocks, never lowers the flag, never drops a mission |
| `Progress.RunProgresses` | Assets/Scripts/ProgressManager.cs:44-133 | the same holds over any sequence of registry calls |
| `Progress.BallsNeverUnlock` | Assets/Scripts/ProgressManager.cs:87-113 | because the ball map is created empty (line 31) and never filled, after any run unlocking a ball changes nothing and every ball reads as locked |
| `AutoSpawner.SpawnOne` | Assets/Scripts/InteractableAutoSpawner.cs:34-56 | the new object is appended at the end and is distinct from every tracked object |
| `AutoSpawner.Start` | Assets/Scripts/InteractableAutoSpawner.cs:20-26 | the pool holds exactly `spawnCount` distinct objects, or none for a non-positive count |
| `AutoSpawner.OnInteractEnd` | Assets/Scripts/InteractableAutoSpawner.cs:58-64 | the pool size never changes; an untracked source changes nothing; a tracked source is removed, the others keep their order, and a new object that was not tracked before is appended last |
| `AutoSpawner.RemoveKeepsWf` | Assets/Scripts/InteractableAutoSpawner.cs:60 | removing from a pool of distinct objects removes the object entirely and keeps the rest distinct |
| `AutoSpawner.InteractFrame` | Assets/Scripts/InteractableAutoSpawner.cs:44-45 | through the subscription to the interactable's end event, the pool can change only when the interactable is on, a camera is active and the button was pressed, and the size never changes |
| `AutoSpawner.Run` | Assets/Scripts/InteractableAutoSpawner.cs:58-64 | any sequence of interaction ends keeps the pool's objects distinct and fresh |
| `AutoSpawner.RunKeepsSize` | Assets/Scripts/InteractableAutoSpawner.cs:58-64 | the pool size is the same after any sequence of interaction ends |
| `AutoSpawner.RunKeepsUntouched` | Assets/Scripts/InteractableAutoSpawner.cs:58-64 | a tracked object that no interaction end names is still tracked afterwards |
| `Lists.Remove` | Assets/Scripts/InteractableAutoSpawner.cs:60 | List.Remove deletes only the first occurrence, keeps the order of the rest, and leaves a list without the element unchanged |
| `Lists.RemoveDistinct` | Assets/Scripts/InteractableAutoSpawner.cs:60 | in a list without duplicates the removed element is gone and every other element stays |
| `Interactables.ShowInteractUI` | Assets/Scripts/Interactables/Interactable.cs:118-122 | afterwards pop-in is set and pop-down is reset |
| `Interactables.HideInteractUI` | Assets/Scripts/Interactables/Interactable.cs:124-128 | afterwards pop-down is set and pop-in is reset |
| `Interactables.OnTriggerEnter` | Assets/Scripts/Interactables/Interactable.cs:41-53 | a player-layer collider turns an off object on, records that player and shows the prompt; any other enter (non-player, or already on) changes nothing, so the recorded player is not overwritten |
| `Interactables.OnTriggerExit` | Assets/Scripts/Interactables/Interactable.cs:56-64 | a player-layer collider turns an on object off and hides the prompt, keeping the recorded player; any other exit changes nothing |
| `Interactables.FaceInteractable` | Assets/Scripts/Interactables/Interactable.cs:80-98 | with no recorded player only the error is logged and no rotation starts; otherwise a rotation of the recorded player starts |
| `Interactables.Update` | Assets/Scripts/Interactables/Interactable.cs:21-38 | the interaction end is raised exactly when the object is on, a camera is active (without one the prompt's camera lookup fails before the button is read) and the button pressed, right after exactly the effects of facing the player; otherwise nothing happens |
| `Interactables.RunKeepsInv` | Assets/Scripts/Interactables/Interactable.cs:41-64 | over any trigger events: when on, a player is recorded; the last prompt call was a pop-in exactly while on; pop-in and pop-down are never both left set |
| `Interactables.RunKeepsPlayer` | Assets/Scripts/Interactables/Interactable.cs:56-64 | once recorded, the player is never forgotten by trigger events |
| `Interactables.InteractionFacesPlayer` | Assets/Scripts/Interactables/Interactable.cs:21-87 | in every state reachable from a fresh interactable, with or without an active camera, an interaction never hits the missing-player error |
| `Stamina.InitialBar` | Assets/Scripts/StaminaBar.cs:31-34 | the bar starts empty with nothing reported |
| `Stamina.DecreaseStaminaBy` | Assets/Scripts/StaminaBar.cs:37-46 | the goal (fill minus difference) is never negative and either is zero or lies the clamped percent below the fill; for a non-negative fill the planned decrease is in [0, fill], at most the clamped percent, and zero for a non-positive percent; the loop runs downwards at the bar's speed |
| `Stamina.IncreaseStaminaByAt` | Assets/Scripts/StaminaBar.cs:55-64 | the goal never exceeds StaminaMax and either equals it or lies the clamped percent above the fill; for a fill up to StaminaMax the planned increase is in [0, StaminaMax - fill], at most the clamped percent, and zero for a non-positive percent |
| `Stamina.IncreaseStaminaBy` | Assets/Scripts/StaminaBar.cs:49-52 | the one-argument overload runs at the bar's own speed, and the planned change it computes is the same whatever speed the loop is given |
| `Stamina.UpdateFillAmount` | Assets/Scripts/StaminaBar.cs:79-85 | the new fill is stored and exactly that value is appended to the reports |
| `Stamina.StepWhileWithin` | Assets/Scripts/StaminaBar.cs:67-77 | the loop takes no step exactly when the difference is negative; it stops only once the accumulated absolute change strictly exceeds the difference, and not a step later; fill and reports follow the step trajectory |
| `Stamina.ChangeStaminaGeneral` | Assets/Scripts/StaminaBar.cs:67-77 | at least one step even for a zero difference; every step's fill is reported, the last report being the final fill; an increase ends strictly above its goal by at most one step, a decrease strictly below its goal by at most one step |
| `Stamina.TrajectoryStepsBy` | Assets/Scripts/StaminaBar.cs:69-76 | the first reported fill is one step past the starting fill and each later report one step past the one before |
| `Stamina.OvershootsGoal` | Assets/Scripts/StaminaBar.cs:69-76 | a loop that stops as soon as its total exceeds the difference overshoots the goal, by no more than one step |
| `Mathf.Clamp` | Assets/Scripts/StaminaBar.cs:39 | the clamped percent lies in [lo, hi], equals the input inside the range, the lower bound below it and the upper bound above it |
| `Mathf.Lerp` | Assets/Scripts/PlayerManager.cs:56 | the interpolation is the first end at or below 0, the second at or above 1, and between them in between |
| `Mathf.LerpMonotone` | Assets/Scripts/PlayerManager.cs:56 | the interpolation grows with its parameter |
| `Mathf.LerpProportional` | Assets/Scripts/PlayerManager.cs:56 | inside [0, 1] the interpolation is linear: a change of the parameter moves the result by the span times that change |
| `Mathf.ApproximatelyZero` | Assets/Scripts/PlayerManager.cs:66 | an axis value counts as released exactly when its magnitude is below eight times the smallest float |
| `Mathf.PingPong` | Assets/Scripts/PlayerManager.cs:82 | for a positive length the bounced value stays in [0, length], equals `t` on the rising leg [0, length] and `2·length − t` on the falling leg; a negative length always gives `2·length` |
| `Mathf.PingPongShift` | Assets/Scripts/PlayerManager.cs:81-82 | the bounced value repeats after two lengths |
| `Mathf.PingPongPeriodic` | Assets/Scripts/PlayerManager.cs:81-82 | the bounced value is the same any whole number of periods (two lengths each) later, so the first period decides it for every time |
| `Mathf.ShiftedIsProduct` | Assets/Scripts/PlayerManager.cs:81 | moving a time forward by n periods one at a time lands at the time plus n periods |
| `Player.AddThrowable` | Assets/Scripts/PlayerManager.cs:94-101 | the object joins the end of the queue, the earlier objects keep their places and the throw state is untouched |
| `Player.ThrowNext` | Assets/Scripts/PlayerManager.cs:104-122 | on a non-empty queue, exactly the first object is dequeued for throwing and the arc is reset to angle 0; nothing else about the thrower changes |
| `Player.ArcAngle` | Assets/Scripts/PlayerManager.cs:82 | for an ordered range the angle lies between the minimum and maximum throw angles; it rises with the time from the minimum over the first range-length of time and falls back over the second; an inverted range pins it at twice the maximum less the minimum |
| `Player.ArcAnglePeriodic` | Assets/Scripts/PlayerManager.cs:81-88 | the angle repeats after twice the angle range, so a hold started late in the game (the angle time starts at the game clock) sweeps the same angles |
| `Player.ArcAngleRepeats` | Assets/Scripts/PlayerManager.cs:81-88 | the angle is the same any whole number of periods later |
| `Player.HandleThrowInput` | Assets/Scripts/PlayerManager.cs:59-91 | nothing happens without an arc renderer or throwables; a release after a hold clears the hold and dequeues exactly the first throwable, nothing else changing; a release without a hold does nothing; a new press starts the hold at the current time and throws nothing; a continued hold changes nothing but the angle time, advancing it by the angle speed times the frame time and redraws the arc at that advanced time's angle |
| `Player.PressHoldReleaseThrowsOne` | Assets/Scripts/PlayerManager.cs:59-91 | press, hold, release draws the arc once, throws exactly the first queued object, and leaves the rest of the queue in order |
| `Player.RunIsFifo` | Assets/Scripts/PlayerManager.cs:94-107 | over any run of pick-ups and frames, the objects dequeued for throwing followed by those still carried are the initial queue followed by the picked-up objects, in order |
| `Player.AwakenessMultiplier` | Assets/Scripts/PlayerManager.cs:42-52 | a multiplier exists exactly when an enemy's squared distance is below the danger radius; it lies in (0, 1] and is 1 only at distance 0 |
| `Player.MultiplierLinear` | Assets/Scripts/PlayerManager.cs:48-51 | inside the danger radius the multiplier falls linearly with the squared distance, by one over the radius per unit; with the value 1 at distance 0 this makes it 1 − d / radius |
| `Player.NearerEnemyMoreAwake` | Assets/Scripts/PlayerManager.cs:48-51 | a nearer enemy never yields a smaller multiplier |
| `Player.FixedUpdate` | Assets/Scripts/PlayerManager.cs:42-52 | each tick first requests a decrease by the awakeness decrease, then, exactly when an enemy is in danger range, an increase by the awakeness increase times the multiplier, never more than the awakeness increase |
| `Player.ThrowVelocity` | Assets/Scripts/PlayerManager.cs:54-57 | the velocity is the minimum at empty stamina, the maximum at full stamina, and always between them |
| `Player.ThrowVelocityProportional` | Assets/Scripts/PlayerManager.cs:54-57 | between empty and full stamina the velocity changes by the velocity span times the change in the fill's share of StaminaMax, so half stamina gives the midpoint |
| `Player.ThrowVelocityMonotone` | Assets/Scripts/PlayerManager.cs:54-57 | more stamina never gives a lower throw velocity |
| `Cameras.UpdateDefaultCameraDistance` | Assets/Scripts/CameraManager.cs:194-204 | a camera's distance is recorded only the first time it is seen with a framing transposer; recorded defaults are never changed or dropped |
| `Cameras.InitializeDefaults` | Assets/Scripts/CameraManager.cs:45-52 | the defaults hold exactly the found cameras that have a framing transposer, each with its current distance |
| `Cameras.AddToCurrentCameraDistance` | Assets/Scripts/CameraManager.cs:84-98 | nothing changes with zooming off, no active camera or no recorded default; otherwise only the active camera's distance changes, to its default plus the delta |
| `Cameras.ZoomIsAbsolute` | Assets/Scripts/CameraManager.cs:95 | the distance depends only on the last delta, so repeating a call with the same delta changes nothing |
| `Cameras.OnInternalNotice` | Assets/Scripts/CameraManager.cs:54-62 | the internal start notice disables zooming, the internal completion notice enables it, nothing else is touched |
| `Cameras.BlendTo` | Assets/Scripts/CameraManager.cs:100-130 | no change without a valid active camera, when the target is the active camera, or when the target is not a scene camera (a null target throws in the dictionary lookup before any change); otherwise the target's default is recorded first-writer-wins, zooming is disabled, the internal start notice precedes the global one (raised only when alerting globally), only the active flags of the target (now on) and the source (now off) change among the cameras, and the completion is awaited |
| `Cameras.BlendFinished` | Assets/Scripts/CameraManager.cs:134-149 | the global completion notice (only when alerting globally) precedes the internal one, zooming is enabled again and that blend is no longer awaited |
| `Cameras.FindPair` | Assets/Scripts/CameraManager.cs:160 | returns the first pair whose normal camera is the given one, or nothing when no pair matches |
| `Cameras.BlendToFarCamera` | Assets/Scripts/CameraManager.cs:156-168 | no active camera or no matching pair changes nothing; otherwise `BlendTo` is called, without global alerts, on the first matching pair's far camera (whose own guards may leave everything unchanged), and the active camera is handed back as the one to return to |
| `Cameras.NoZoomDuringBlend` | Assets/Scripts/CameraManager.cs:84-111 | right after a blend starts, zoom requests are ignored |
| `Cameras.ApplyKeeps` | Assets/Scripts/CameraManager.cs:54-62 | every camera operation keeps zooming enabled unless a blend is awaited and keeps the recorded defaults |
| `Cameras.RunKeeps` | Assets/Scripts/CameraManager.cs:194-204 | over any run, recorded defaults are never overwritten or dropped, and zooming is off only while a blend is awaited |

## Left out

- Rendering, physics impulses, quaternion rotation (`RotateAnimation`, the force in `ThrowNext`), the launch-arc projectile maths, particle fog and the UI fades: floating-point engine work with no bookkeeping in it.
- Coroutine scheduling and timing: each stamina coroutine is modelled on its own; the interleaving of the several stamina coroutines the player manager starts every physics tick, and `StopAllSpawnedCoroutines`, are not modelled.
- Scene queries (`DistToClosestEnemy`, `FindObjectsOfType`) and the brain's liveness polling: the closest-enemy result, the list of found cameras, whether the camera manager has an active camera when an interactable updates, and the moment a blend completes are inputs of the model.
- Float rounding: fills, distances and angles are reals.
- The engine's clamping of an image's fill amount into [0, 1] is not modelled; the stored fill is the value written, which is also exactly the value reported to subscribers.
- `Stamina.ChangeStaminaGeneral`: a zero step with a non-negative difference never finishes in the source (the coroutine runs forever); the model requires a non-zero step in that case.
- `Player.ArcAngle`: an empty angle range (maximum equal to minimum) makes the engine's PingPong divide by zero and produce a non-number; the model yields the minimum angle there.
- `Player.ThrowNext`: the source marks it unsafe on an empty queue; the model requires a non-empty queue, which its only caller guarantees.
- `Player.ThrowNext`: an object without a rigid body is dequeued but stays hidden and parented to the throw position instead of being released (PlayerManager.cs:109-118); the model's `Throw` effect only records the dequeue, not whether the object leaves the player.
- `Interactables.Inv`: `Prompt` records the last SetTrigger/ResetTrigger call on each animator parameter, not the animator's own trigger state, which the animator clears once a transition consumes the trigger; "pop-in set exactly while on" is a statement about those calls.
- `Cameras.BlendTo`: the brain is taken to report the blend target as active immediately; the engine updates it on its next frame.
- The second half of `BlendToFarCameraForSeconds` (waiting, then blending back) is the same `BlendTo` call on the returned camera after a wait, so it has no separate member.
- The throwable spawner's subscription to a `PlayerManager.OnThrow` event: that event does not exist in the player manager, so only the interactable wiring is modelled.
- `OnInteract` may be overridden by derived interactables; only the base behaviour (raise the interaction end) is modelled.
- Debug logging other than the missing-player error, which is an effect of `FaceInteractable`.

=== FILE: camera.dfy ===
/** The camera manager's bookkeeping: the first-seen default distance of
    every virtual camera, the zoom gate, blends between cameras with their
    start/complete notifications, and the blend to a camera's far partner. */
module Cameras {
  import opened Wrappers
  import opened Engine

  type CameraId = ObjectId

  /** A virtual camera: its framing transposer's current distance (None when
      it has no framing transposer), whether its game object is active, and
      whether the engine still considers it valid. */
  datatype VirtualCamera = VirtualCamera(distance: Option<real>, active: bool, valid: bool)

  /** A registered pair of a normal camera and its far counterpart. */
  datatype CameraPair = CameraPair(normal: CameraId, far: CameraId)

  /** A blend whose completion is still awaited. */
  datatype Blend = Blend(from: CameraId, to: CameraId, alertGlobally: bool)

  /** Notifications, in the order they are raised. */
  datatype Notice =
    | StartInternal(from: CameraId, to: CameraId)
    | StartGlobal(from: CameraId, to: CameraId)
    | CompleteGlobal(from: CameraId, to: CameraId)
    | CompleteInternal(from: CameraId, to: CameraId)

  datatype Manager = Manager(
    cameras: map<CameraId, VirtualCamera>,  // the scene's virtual cameras
    brainActive: Option<CameraId>,          // the camera the brain reports as active
    canZoom: bool,
    defaults: map<CameraId, real>,          // default distance, recorded on first sight
    pending: seq<Blend>)                    // blends whose completion is awaited

  datatype Step = Step(manager: Manager, notices: seq<Notice>)

  /** The default map only grows, and a recorded default never changes. */
  ghost predicate DefaultsKept(m: Manager, m': Manager) {
    && m.defaults.Keys <= m'.defaults.Keys
    && forall c | c in m.defaults :: m'.defaults[c] == m.defaults[c]
  }

  /** UpdateDefaultCameraDistance: a camera's distance is recorded only the
      first time it is seen, and only if it has a framing transposer. */
  function UpdateDefaultCameraDistance(m: Manager, cam: CameraId): (m': Manager)
    ensures DefaultsKept(m, m')
    ensures cam in m.defaults ==> m' == m
    ensures cam !in m.cameras || m.cameras[cam].distance.None? ==> m' == m
    ensures cam !in m.defaults && cam in m.cameras && m.cameras[cam].distance.Some? ==>
              cam in m'.defaults && m'.defaults[cam] == m.cameras[cam].distance.value
    ensures m'.defaults.Keys <= m.defaults.Keys + {cam}
    ensures m'.cameras == m.cameras && m'.brainActive == m.brainActive
    ensures m'.canZoom == m.canZoom && m'.pending == m.pending
  {
    if cam !in m.defaults && cam in m.cameras && m.cameras[cam].distance.Some? then
      m.(defaults := m.defaults[cam := m.cameras[cam].distance.value])
    else m
  }

  /** InitializeDefaultCameraDistanceMapping: starting from an empty map, every
      camera found in the scene with a framing transposer gets its current
      distance recorded. */
  method InitializeDefaults(m: Manager, found: seq<CameraId>) returns (m': Manager)
    ensures forall c :: c in m'.defaults <==>
              c in found && c in m.cameras && m.cameras[c].distance.Some?
    ensures forall c | c in m'.defaults :: m'.defaults[c] == m.cameras[c].distance.value
    ensures m'.cameras == m.cameras && m'.brainActive == m.brainActive
    ensures m'.canZoom == m.canZoom && m'.pending == m.pending
  {
    m' := m.(defaults := map[]);
    var i := 0;
    while i < |found|
      invariant 0 <= i <= |found|
      invariant forall c :: c in m'.defaults <==>
                  c in found[..i] && c in m.cameras && m.cameras[c].distance.Some?
      invariant forall c | c in m'.defaults :: m'.defaults[c] == m.cameras[c].distance.value
      invariant m'.cameras == m.cameras && m'.brainActive == m.brainActive
      invariant m'.canZoom == m.canZoom && m'.pending == m.pending
    {
      assert found[..i + 1] == found[..i] + [found[i]];
      m' := UpdateDefaultCameraDistance(m', found[i]);
      i := i + 1;
    }
    assert found[..i] == found;
  }

  /** AddToCurrentCameraDistance: sets the active camera's distance to its
      default plus `delta`, unless zooming is disabled, no camera is active,
      no default is recorded, or the camera has no framing transposer. */
  function AddToCurrentCameraDistance(m: Manager, delta: real): (m': Manager)
    ensures m'.cameras.Keys == m.cameras.Keys
    ensures !m.canZoom || m.brainActive.None? ==> m' == m
    ensures m.brainActive.Some? && m.brainActive.value !in m.defaults ==> m' == m
    ensures m.brainActive.Some? && (m.brainActive.value !in m.cameras || m.cameras[m.brainActive.value].distance.None?) ==> m' == m
    ensures m.canZoom && m.brainActive.Some? && m.brainActive.value in m.defaults
            && m.brainActive.value in m.cameras && m.cameras[m.brainActive.value].distance.Some? ==>
              m'.cameras[m.brainActive.value].distance == Some(m.defaults[m.brainActive.value] + delta)
    ensures forall c | c in m.cameras && Some(c) != m.brainActive :: m'.cameras[c] == m.cameras[c]
    ensures forall c | c in m.cameras :: m'.cameras[c].active == m.cameras[c].active && m'.cameras[c].valid == m.cameras[c].valid
    ensures m'.defaults == m.defaults && m'.brainActive == m.brainActive
    ensures m'.canZoom == m.canZoom && m'.pending == m.pending
  {
    if !m.canZoom || m.brainActive.None? then m
    else
      var cam := m.brainActive.value;
      if cam in m.defaults && cam in m.cameras && m.cameras[cam].distance.Some? then
        m.(cameras := m.cameras[cam := m.cameras[cam].(distance := Some(m.defaults[cam] + delta))])
      else m
  }

  /** The distance is absolute, not cumulative: the last delta alone decides
      it, so repeating a call changes nothing. */
  lemma ZoomIsAbsolute(m: Manager, d1: real, d2: real)
    ensures AddToCurrentCameraDistance(AddToCurrentCameraDistance(m, d1), d2) == AddToCurrentCameraDistance(m, d2)
    ensures AddToCurrentCameraDistance(AddToCurrentCameraDistance(m, d1), d1) == AddToCurrentCameraDistance(m, d1)
  {
    var m1 := AddToCurrentCameraDistance(m, d1);
    if m.canZoom && m.brainActive.Some? {
      var cam := m.brainActive.value;
      if cam in m.defaults && cam in m.cameras && m.cameras[cam].distance.Some? {
        assert m1.cameras[cam := m1.cameras[cam].(distance := Some(m.defaults[cam] + d2))]
            == m.cameras[cam := m.cameras[cam].(distance := Some(m.defaults[cam] + d2))];
      }
    }
  }

  /** The brain reports a valid active camera. */
  predicate ActiveCameraValid(m: Manager) {
    m.brainActive.Some? && m.brainActive.value in m.cameras && m.cameras[m.brainActive.value].valid
  }

  /** The internal listeners: blend start disables zooming and blend
      completion enables it again; global notices change nothing here. */
  function OnInternalNotice(m: Manager, n: Notice): (m': Manager)
    ensures n.StartInternal? ==> !m'.canZoom
    ensures n.CompleteInternal? ==> m'.canZoom
    ensures !n.StartInternal? && !n.CompleteInternal? ==> m' == m
    ensures m'.cameras == m.cameras && m'.defaults == m.defaults
    ensures m'.brainActive == m.brainActive && m'.pending == m.pending
  {
    match n
    case StartInternal(_, _) => m.(canZoom := false)
    case CompleteInternal(_, _) => m.(canZoom := true)
    case _ => m
  }

  /** BlendTo: when the active camera is valid and differs from the target,
      records the target's default distance, disables zooming, raises the
      internal and then (if asked) the global start notice, activates the
      target, deactivates the source and starts waiting for completion. A
      target that is not a scene camera makes the call fail before any change. */
  function BlendTo(m: Manager, to: CameraId, alertGlobally: bool): (s: Step)
    ensures !ActiveCameraValid(m) || m.brainActive == Some(to) || to !in m.cameras ==> s == Step(m, [])
    ensures ActiveCameraValid(m) && m.brainActive != Some(to) && to in m.cameras ==>
              var from := m.brainActive.value;
              && s.notices == [StartInternal(from, to)] + (if alertGlobally then [StartGlobal(from, to)] else [])
              && !s.manager.canZoom
              && s.manager.defaults == UpdateDefaultCameraDistance(m, to).defaults
              && s.manager.cameras.Keys == m.cameras.Keys
              && s.manager.cameras[to] == m.cameras[to].(active := true)
              && s.manager.cameras[from] == m.cameras[from].(active := false)
              && (forall c | c in m.cameras && c != to && c != from :: s.manager.cameras[c] == m.cameras[c])
              && s.manager.brainActive == Some(to)
              && s.manager.pending == m.pending + [Blend(from, to, alertGlobally)]
    ensures DefaultsKept(m, s.manager)
  {
    if !ActiveCameraValid(m) then Step(m, [])
    else
      var from := m.brainActive.value;
      if from == to || to !in m.cameras then Step(m, [])
      else
        var m1 := UpdateDefaultCameraDistance(m, to).(canZoom := false);
        var notices := [StartInternal(from, to)] + (if alertGlobally then [StartGlobal(from, to)] else []);
        var m2 := OnInternalNotice(m1, notices[0]);
        var cams := m2.cameras[to := m2.cameras[to].(active := true)];
        var cams' := cams[from := cams[from].(active := false)];
        Step(m2.(cameras := cams', brainActive := Some(to), pending := m2.pending + [Blend(from, to, alertGlobally)]), notices)
  }

  /** WaitForBlendFinish, once the source camera is no longer live: raises the
      global completion notice (if asked) and then the internal one, which
      re-enables zooming. Naming no pending blend changes nothing. */
  function BlendFinished(m: Manager, i: nat): (s: Step)
    ensures i >= |m.pending| ==> s == Step(m, [])
    ensures i < |m.pending| ==>
              var b := m.pending[i];
              && s.notices == (if b.alertGlobally then [CompleteGlobal(b.from, b.to)] else []) + [CompleteInternal(b.from, b.to)]
              && s.manager.canZoom
              && s.manager.pending == m.pending[..i] + m.pending[i + 1..]
              && s.manager.cameras == m.cameras && s.manager.defaults == m.defaults
              && s.manager.brainActive == m.brainActive
  {
    if i >= |m.pending| then Step(m, [])
    else
      var b := m.pending[i];
      var notices := (if b.alertGlobally then [CompleteGlobal(b.from, b.to)] else []) + [CompleteInternal(b.from, b.to)];
      var m1 := m.(pending := m.pending[..i] + m.pending[i + 1..]);
      Step(OnInternalNotice(m1, notices[|notices| - 1]), notices)
  }

  /** List.Find over the distance pairs: the first pair whose normal camera is `cam`. */
  function FindPair(pairs: seq<CameraPair>, cam: CameraId): (r: Option<CameraPair>)
    ensures r.None? <==> forall k | 0 <= k < |pairs| :: pairs[k].normal != cam
    ensures r.Some? ==> exists k | 0 <= k < |pairs| :: pairs[k] == r.value && forall j | 0 <= j < k :: pairs[j].normal != cam
    ensures r.Some? ==> r.value.normal == cam
  {
    if |pairs| == 0 then None
    else if pairs[0].normal == cam then Some(pairs[0])
    else
      var r := FindPair(pairs[1..], cam);
      if r.Some? then
        var k :| 0 <= k < |pairs[1..]| && pairs[1..][k] == r.value && forall j | 0 <= j < k :: pairs[1..][j].normal != cam;
        assert pairs[k + 1] == r.value;
        assert forall j | 0 <= j < k + 1 :: pairs[j].normal != cam by {
          forall j | 0 <= j < k + 1 ensures pairs[j].normal != cam {
            if j > 0 { assert pairs[j] == pairs[1..][j - 1]; }
          }
        }
        r
      else
        assert forall k | 0 <= k < |pairs| :: pairs[k].normal != cam by {
          forall k | 0 <= k < |pairs| ensures pairs[k].normal != cam {
            if k > 0 { assert pairs[k] == pairs[1..][k - 1]; }
          }
        }
        r
  }

  /** The first half of BlendToFarCameraForSeconds: with no active camera, or
      no pair whose normal camera is the active one, nothing happens; otherwise
      a non-global blend to the first matching pair's far camera starts, and
      the camera to return to is handed back. */
  function BlendToFarCamera(m: Manager, pairs: seq<CameraPair>): (r: (Step, Option<CameraId>))
    ensures m.brainActive.None? ==> r == (Step(m, []), None)
    ensures m.brainActive.Some? && FindPair(pairs, m.brainActive.value).None? ==> r == (Step(m, []), None)
    ensures m.brainActive.Some? && FindPair(pairs, m.brainActive.value).Some? ==>
              r == (BlendTo(m, FindPair(pairs, m.brainActive.value).value.far, false), m.brainActive)
  {
    if m.brainActive.None? then (Step(m, []), None)
    else
      match FindPair(pairs, m.brainActive.value)
      case None => (Step(m, []), None)
      case Some(pair) => (BlendTo(m, pair.far, false), m.brainActive)
  }

  // ---------------------------------------------------------------------------
  // Properties across operations

  /** While a blend started by BlendTo is running, zoom requests are ignored. */
  lemma NoZoomDuringBlend(m: Manager, to: CameraId, alertGlobally: bool, delta: real)
    requires ActiveCameraValid(m) && m.brainActive != Some(to) && to in m.cameras
    ensures var m' := BlendTo(m, to, alertGlobally).manager;
            AddToCurrentCameraDistance(m', delta) == m'
  {
  }

  datatype Op =
    | Zoom(delta: real)
    | BlendToOp(to: CameraId, alertGlobally: bool)
    | FarBlend(pairs: seq<CameraPair>)
    | Finished(index: nat)

  function Apply(m: Manager, op: Op): Manager {
    match op
    case Zoom(d) => AddToCurrentCameraDistance(m, d)
    case BlendToOp(to, alert) => BlendTo(m, to, alert).manager
    case FarBlend(pairs) => BlendToFarCamera(m, pairs).0.manager
    case Finished(i) => BlendFinished(m, i).manager
  }

  function Run(m: Manager, ops: seq<Op>): Manager
    decreases |ops|
  {
    if |ops| == 0 then m else Run(Apply(m, ops[0]), ops[1..])
  }

  /** Zooming is only ever off while some blend is awaited. */
  ghost predicate ZoomInv(m: Manager) {
    !m.canZoom ==> |m.pending| > 0
  }

  lemma ApplyKeeps(m: Manager, op: Op)
    requires ZoomInv(m)
    ensures ZoomInv(Apply(m, op))
    ensures DefaultsKept(m, Apply(m, op))
  {
    match op
    case FarBlend(pairs) =>
      if m.brainActive.Some? && FindPair(pairs, m.brainActive.value).Some? {
        var _ := BlendTo(m, FindPair(pairs, m.brainActive.value).value.far, false);
      }
    case _ =>
  }

  /** Over any run, recorded defaults are never overwritten or dropped, and
      zooming stays enabled whenever no blend is awaited. */
  lemma {:induction false} RunKeeps(m: Manager, ops: seq<Op>)
    requires ZoomInv(m)
    ensures ZoomInv(Run(m, ops))
    ensures DefaultsKept(m, Run(m, ops))
    decreases |ops|
  {
    if |ops| > 0 {
      ApplyKeeps(m, ops[0]);
      RunKeeps(Apply(m, ops[0]), ops[1..]);
    }
  }
}

=== FILE: engine.dfy ===
/** The few engine notions the scripts' bookkeeping refers to: scene objects
    are abstract identities and colliders carry the layer of their object. */
module Engine {

  /** A scene object (a GameObject, a camera, a collectible asset). */
  type ObjectId = nat

  /** A physics layer index, as returned by LayerMask.NameToLayer. */
  type Layer = int

  /** The collider that entered or left a trigger: its object and that object's layer. */
  datatype Collider = Collider(obj: ObjectId, layer: Layer)
}

=== FILE: interactable.dfy ===
/** An interactable object: an on/off proximity flag driven by the player's
    trigger enter/exit, the pop-in/pop-down animator triggers that show and hide
    its prompt, and the interaction that is only possible while the flag is on. */
module Interactables {
  import opened Wrappers
  import opened Engine

  /** The last call made on each of the prompt's two animator trigger
      parameters (true = SetTrigger, false = ResetTrigger or never called). */
  datatype Prompt = Prompt(popIn: bool, popDown: bool)

  datatype Interactable = Interactable(
    player: Option<ObjectId>,  // the player recorded on the first enter
    on: bool,                  // the player is inside the trigger volume
    prompt: Prompt)

  /** A freshly spawned interactable: off, no player, no trigger set. */
  const Initial := Interactable(None, false, Prompt(false, false))

  /** What a frame's interaction does outside this object's own state. */
  datatype Effect =
    | PlayerMissing                  // FaceInteractable logged that no player is recorded
    | FacePlayer(player: ObjectId)   // a rotation of the player towards the object started
    | InteractEnd                    // OnInteractEnd was raised with this object as source

  /** ShowInteractUI: pop-down is reset, then pop-in is set. */
  function ShowInteractUI(p: Prompt): (p': Prompt)
    ensures p'.popIn && !p'.popDown
  {
    p.(popDown := false).(popIn := true)
  }

  /** HideInteractUI: pop-in is reset, then pop-down is set. */
  function HideInteractUI(p: Prompt): (p': Prompt)
    ensures p'.popDown && !p'.popIn
  {
    p.(popIn := false).(popDown := true)
  }

  /** OnTriggerEnter: only a player-layer collider turns an "off" object on. */
  function OnTriggerEnter(s: Interactable, other: Collider, playerLayer: Layer): (s': Interactable)
    ensures other.layer == playerLayer && !s.on ==>
              s'.on && s'.player == Some(other.obj) && s'.prompt.popIn && !s'.prompt.popDown
    ensures other.layer != playerLayer || s.on ==> s' == s
  {
    if other.layer == playerLayer && !s.on then
      Interactable(Some(other.obj), true, ShowInteractUI(s.prompt))
    else s
  }

  /** OnTriggerExit: only a player-layer collider turns an "on" object off; the
      recorded player is kept. */
  function OnTriggerExit(s: Interactable, other: Collider, playerLayer: Layer): (s': Interactable)
    ensures other.layer == playerLayer && s.on ==>
              !s'.on && s'.player == s.player && s'.prompt.popDown && !s'.prompt.popIn
    ensures other.layer != playerLayer || !s.on ==> s' == s
  {
    if other.layer == playerLayer && s.on then
      s.(on := false, prompt := HideInteractUI(s.prompt))
    else s
  }

  /** FaceInteractable: without a recorded player it only logs an error. */
  function FaceInteractable(s: Interactable): (effects: seq<Effect>)
    ensures s.player.None? <==> effects == [PlayerMissing]
    ensures s.player.Some? ==> effects == [FacePlayer(s.player.value)]
  {
    match s.player
    case None => [PlayerMissing]
    case Some(pl) => [FacePlayer(pl)]
  }

  /** Update: while on, the prompt is turned towards the active camera; then
      pressing the interact button faces the player and raises the end of the
      interaction. Without an active camera (only at the start of the game)
      the camera lookup fails and the frame is abandoned before the button is
      read. The state itself is not changed by a frame. */
  function Update(s: Interactable, cameraActive: bool, interactPressed: bool): (effects: seq<Effect>)
    ensures InteractEnd in effects <==> s.on && cameraActive && interactPressed
    ensures !(s.on && cameraActive && interactPressed) ==> effects == []
    ensures s.on && cameraActive && interactPressed ==> effects == FaceInteractable(s) + [InteractEnd]
  {
    if s.on && cameraActive && interactPressed then FaceInteractable(s) + [InteractEnd] else []
  }

  // ---------------------------------------------------------------------------
  // Runs of trigger events

  datatype TriggerEvent = Enter(other: Collider) | Exit(other: Collider)

  function Step(s: Interactable, e: TriggerEvent, playerLayer: Layer): Interactable {
    match e
    case Enter(c) => OnTriggerEnter(s, c, playerLayer)
    case Exit(c) => OnTriggerExit(s, c, playerLayer)
  }

  function Run(s: Interactable, events: seq<TriggerEvent>, playerLayer: Layer): Interactable
    decreases |events|
  {
    if |events| == 0 then s else Run(Step(s, events[0], playerLayer), events[1..], playerLayer)
  }

  /** What holds of every reachable interactable: when on, a player is recorded;
      the last pop-in call was a SetTrigger exactly while on; pop-in and
      pop-down are never both left set. */
  ghost predicate Inv(s: Interactable) {
    && (s.on ==> s.player.Some?)
    && (s.on <==> s.prompt.popIn)
    && !(s.prompt.popIn && s.prompt.popDown)
  }

  lemma {:induction false} RunKeepsInv(s: Interactable, events: seq<TriggerEvent>, playerLayer: Layer)
    requires Inv(s)
    ensures Inv(Run(s, events, playerLayer))
    decreases |events|
  {
    if |events| > 0 {
      RunKeepsInv(Step(s, events[0], playerLayer), events[1..], playerLayer);
    }
  }

  /** Once a player has been recorded, trigger events never forget it. */
  lemma {:induction false} RunKeepsPlayer(s: Interactable, events: seq<TriggerEvent>, playerLayer: Layer)
    requires s.player.Some?
    ensures Run(s, events, playerLayer).player.Some?
    decreases |events|
  {
    if |events| > 0 {
      RunKeepsPlayer(Step(s, events[0], playerLayer), events[1..], playerLayer);
    }
  }

  /** In a reachable state an interaction always faces the recorded player:
      the missing-player error cannot occur through Update. */
  lemma {:induction false} InteractionFacesPlayer(events: seq<TriggerEvent>, playerLayer: Layer)
    ensures forall cameraActive: bool :: PlayerMissing !in Update(Run(Initial, events, playerLayer), cameraActive, true)
  {
    RunKeepsInv(Initial, events, playerLayer);
  }
}

=== FILE: lists.dfy ===
/** The generic List operations the scripts use, over sequences. */
module Lists {
  import opened Wrappers

  /** No element occurs twice. */
  ghost predicate Distinct<T>(xs: seq<T>) {
    forall i, j | 0 <= i < j < |xs| :: xs[i] != xs[j]
  }

  /** List.IndexOf: the position of the first occurrence of `x`, if any. */
  function IndexOf<T(==)>(xs: seq<T>, x: T): (r: Option<nat>)
    ensures r.None? <==> x !in xs
    ensures r.Some? ==> r.value < |xs| && xs[r.value] == x && x !in xs[..r.value]
  {
    if |xs| == 0 then None
    else if xs[0] == x then Some(0)
    else
      match IndexOf(xs[1..], x)
      case None => None
      case Some(i) =>
        assert xs[1..][..i] == xs[1..i + 1];
        assert xs[..i + 1] == [xs[0]] + xs[1..i + 1];
        Some(i + 1)
  }

  /** List.Remove: deletes the first occurrence of `x` and keeps the order of
      everything else; the list is unchanged when `x` is absent (C# then
      returns false, which callers observe as `x !in xs`). */
  function Remove<T(==)>(xs: seq<T>, x: T): (r: seq<T>)
    ensures x !in xs ==> r == xs
    ensures x in xs ==> |r| == |xs| - 1
    ensures x in xs ==> exists i | 0 <= i < |xs| :: xs[i] == x && x !in xs[..i] && r == xs[..i] + xs[i + 1..]
    ensures multiset(r) == multiset(xs) - multiset{x}
  {
    match IndexOf(xs, x)
    case None =>
      assert x !in multiset(xs);
      xs
    case Some(i) =>
      assert xs == xs[..i] + [x] + xs[i + 1..];
      xs[..i] + xs[i + 1..]
  }

  /** Deleting position `i` of a duplicate-free list: the deleted element is gone,
      every other element stays, and no duplicate appears. */
  lemma DeleteAtDistinct<T>(xs: seq<T>, i: nat)
    requires Distinct(xs) && i < |xs|
    ensures xs[i] !in xs[..i] + xs[i + 1..]
    ensures Distinct(xs[..i] + xs[i + 1..])
    ensures forall k | 0 <= k < |xs| && k != i :: xs[k] in xs[..i] + xs[i + 1..]
  {
    var r := xs[..i] + xs[i + 1..];
    assert |r| == |xs| - 1;
    assert forall k | 0 <= k < i :: r[k] == xs[k];
    assert forall k | i <= k < |r| :: r[k] == xs[k + 1];
    forall k | 0 <= k < |xs| && k != i ensures xs[k] in r {
      if k < i { assert r[k] == xs[k]; } else { assert r[k - 1] == xs[k]; }
    }
  }

  /** Removing one element from a duplicate-free list removes every copy of it,
      and the rest stays duplicate-free. */
  lemma RemoveDistinct<T>(xs: seq<T>, x: T)
    requires Distinct(xs)
    ensures x !in Remove(xs, x)
    ensures Distinct(Remove(xs, x))
    ensures forall y | y in xs && y != x :: y in Remove(xs, x)
  {
    match IndexOf(xs, x)
    case None =>
    case Some(i) =>
      DeleteAtDistinct(xs, i);
      assert Remove(xs, x) == xs[..i] + xs[i + 1..];
  }
}

=== FILE: mathf.dfy ===
/** The engine's single-precision math helpers that the scripts call,
    over reals. Rounding is not modelled. */
module Mathf {

  /** Smallest positive single-precision value (the engine's Mathf.Epsilon). */
  const Epsilon: real := 1.401298e-45

  function Abs(x: real): (r: real)
    ensures r >= 0.0 && (r == x || r == -x)
  {
    if x < 0.0 then -x else x
  }

  function Max(a: real, b: real): (r: real)
    ensures r >= a && r >= b && (r == a || r == b)
  {
    if a > b then a else b
  }

  function Min(a: real, b: real): (r: real)
    ensures r <= a && r <= b && (r == a || r == b)
  {
    if a < b then a else b
  }

  /** Mathf.Clamp: the lower bound is tested first. */
  function Clamp(value: real, lo: real, hi: real): (r: real)
    ensures lo <= hi ==> lo <= r <= hi
    ensures lo <= value <= hi ==> r == value
    ensures value < lo ==> r == lo
    ensures value >= lo && value > hi ==> r == hi
  {
    if value < lo then lo else if value > hi then hi else value
  }

  /** Mathf.Lerp: interpolation with the parameter clamped into [0, 1]. */
  function Lerp(a: real, b: real, t: real): (r: real)
    ensures t <= 0.0 ==> r == a
    ensures t >= 1.0 ==> r == b
    ensures a <= b ==> a <= r <= b
  {
    a + Scale(b - a, Clamp(t, 0.0, 1.0))
  }

  /** The fraction `c` of a span `d`. */
  function Scale(d: real, c: real): (r: real)
    requires 0.0 <= c <= 1.0
    ensures d >= 0.0 ==> 0.0 <= r <= d
    ensures c == 0.0 ==> r == 0.0
    ensures c == 1.0 ==> r == d
  {
    ScaleBounds(d, c);
    d * c
  }

  lemma ScaleBounds(d: real, c: real)
    requires 0.0 <= c <= 1.0
    ensures d >= 0.0 ==> 0.0 <= d * c <= d
  {
    if d >= 0.0 {
      NonNegProduct(d, c);
      NonNegProduct(d, 1.0 - c);
    }
  }

  lemma NonNegProduct(x: real, y: real)
    requires x >= 0.0 && y >= 0.0
    ensures x * y >= 0.0
  {
  }

  /** Lerp grows with its parameter when the end points are ordered. */
  lemma LerpMonotone(a: real, b: real, t1: real, t2: real)
    requires a <= b && t1 <= t2
    ensures Lerp(a, b, t1) <= Lerp(a, b, t2)
  {
    var c1, c2 := Clamp(t1, 0.0, 1.0), Clamp(t2, 0.0, 1.0);
    assert c1 <= c2;
    NonNegProduct(b - a, c2 - c1);
    assert (b - a) * c2 - (b - a) * c1 == (b - a) * (c2 - c1);
  }

  /** Inside [0, 1] Lerp is linear: moving the parameter moves the result by
      the span times the parameter's change. */
  lemma LerpProportional(a: real, b: real, t1: real, t2: real)
    requires 0.0 <= t1 <= 1.0 && 0.0 <= t2 <= 1.0
    ensures Lerp(a, b, t2) - Lerp(a, b, t1) == (b - a) * (t2 - t1)
  {
    assert (b - a) * t2 - (b - a) * t1 == (b - a) * (t2 - t1);
  }

  /** Mathf.Approximately: equal up to a relative tolerance of 1e-6, or up to
      eight times Epsilon near zero. */
  predicate Approximately(a: real, b: real) {
    Abs(b - a) < Max(0.000001 * Max(Abs(a), Abs(b)), Epsilon * 8.0)
  }

  /** Against zero only the absolute tolerance matters. */
  lemma ApproximatelyZero(a: real)
    ensures Approximately(a, 0.0) <==> Abs(a) < Epsilon * 8.0
  {
    if Abs(a) > 0.0 {
      assert 0.000001 * Abs(a) < Abs(a);
    }
  }

  /** Mathf.Repeat: `t` wrapped into [0, length]. A negative length is not
      rejected: the clamp then yields one of its two bounds. */
  function Repeat(t: real, length: real): (r: real)
    requires length != 0.0
    ensures length > 0.0 ==> 0.0 <= r <= length
    ensures length > 0.0 && 0.0 <= t < length ==> r == t
    ensures length < 0.0 ==> r == 0.0 || r == length
  {
    QuotientBelowOne(t, length);
    Clamp(t - (t / length).Floor as real * length, 0.0, length)
  }

  /** Inside one period the quotient floors to zero. */
  lemma QuotientBelowOne(t: real, length: real)
    requires length != 0.0
    ensures 0.0 <= t < length ==> (t / length).Floor == 0
  {
    if 0.0 <= t < length {
      var q := t / length;
      assert q * length == t;
      if q < 0.0 {
        NonNegProduct(-q, length);
        assert false;
      }
      if q >= 1.0 {
        NonNegProduct(q - 1.0, length);
        assert false;
      }
    }
  }

  /** Mathf.PingPong: `t` bounced back and forth over [0, length]; on the
      first period it rises from 0 to length and falls back. A negative
      length gives twice the length whatever `t` is. */
  function PingPong(t: real, length: real): (r: real)
    requires length != 0.0
    ensures length > 0.0 ==> 0.0 <= r <= length
    ensures length > 0.0 && 0.0 <= t <= length ==> r == t
    ensures length > 0.0 && length <= t < length * 2.0 ==> r == length * 2.0 - t
    ensures length < 0.0 ==> r == length * 2.0
  {
    length - Abs(Repeat(t, length * 2.0) - length)
  }

  /** Repeat is periodic: shifting `t` by one length changes nothing. */
  lemma RepeatPeriodic(t: real, length: real)
    requires length > 0.0
    ensures Repeat(t + length, length) == Repeat(t, length)
  {
    var q := t / length;
    assert q * length == t;
    QuotientOf(q + 1.0, t + length, length);
    assert (q + 1.0).Floor == q.Floor + 1;
    assert (q.Floor + 1) as real * length == q.Floor as real * length + length;
  }

  /** The quotient is the unique factor. */
  lemma QuotientOf(x: real, y: real, d: real)
    requires d != 0.0 && x * d == y
    ensures y / d == x
  {
    var q := y / d;
    assert q * d == y;
    assert (q - x) * d == 0.0;
  }

  /** PingPong repeats every two lengths. */
  lemma PingPongShift(t: real, length: real)
    requires length > 0.0
    ensures PingPong(t + length * 2.0, length) == PingPong(t, length)
  {
    var p := length * 2.0;
    RepeatPeriodic(t, p);
    var r1, r0 := Repeat(t + p, p), Repeat(t, p);
    assert r1 == r0;
    assert PingPong(t + p, length) == length - Abs(r1 - length);
  }

  /** `t` moved forward by `n` steps of `p`. */
  function Shifted(t: real, p: real, n: nat): real {
    if n == 0 then t else Shifted(t, p, n - 1) + p
  }

  /** `n` steps of `p` are `n` times `p`. */
  lemma {:induction false} ShiftedIsProduct(t: real, p: real, n: nat)
    ensures Shifted(t, p, n) == t + n as real * p
  {
    if n > 0 {
      ShiftedIsProduct(t, p, n - 1);
      assert n as real * p == (n - 1) as real * p + p;
    }
  }

  /** Any whole number of periods later PingPong is the same, so the first
      period decides its value for every later time. */
  lemma {:induction false} PingPongPeriodic(t: real, length: real, n: nat)
    requires length > 0.0
    ensures PingPong(Shifted(t, length * 2.0, n), length) == PingPong(t, length)
  {
    if n > 0 {
      PingPongPeriodic(t, length, n - 1);
      PingPongShift(Shifted(t, length * 2.0, n - 1), length);
    }
  }
}

=== FILE: player.dfy ===
/** The player manager's bookkeeping: the queue of carried throwables, the
    press/hold/release automaton of the throw button, the awakeness requests
    made each physics tick, and the throw velocity derived from the stamina fill. */
module Player {
  import opened Wrappers
  import opened Engine
  import opened Mathf
  import Stamina

  /** The manager's inspector settings. */
  datatype Config = Config(
    awakenessIncrease: real,
    awakenessDecrease: real,
    dangerRadius: real,
    angleIncreaseSpeed: real,
    minThrowAngle: real,
    maxThrowAngle: real,
    minThrowVelocity: real,
    maxThrowVelocity: real)

  /** The throwing state: whether a launch-arc renderer exists, the carried
      throwables in pick-up order, whether the button is being held, and the
      running time that drives the arc angle. */
  datatype Thrower = Thrower(
    hasArcRenderer: bool,
    throwables: seq<ObjectId>,
    isThrowing: bool,
    startThrowTime: real)

  /** What a frame does outside the thrower's own state. */
  datatype Effect =
    | Throw(obj: ObjectId)    // the object is dequeued for throwing
    | RenderArc(angle: real)  // the launch arc is drawn at this angle (0 hides it)

  datatype Step = Step(thrower: Thrower, effects: seq<Effect>)

  /** AddThrowable: the picked-up object joins the end of the queue. */
  function AddThrowable(t: Thrower, obj: ObjectId): (t': Thrower)
    ensures t'.throwables == t.throwables + [obj]
    ensures t'.throwables[|t'.throwables| - 1] == obj && t'.throwables[..|t.throwables|] == t.throwables
    ensures t'.isThrowing == t.isThrowing && t'.startThrowTime == t.startThrowTime
    ensures t'.hasArcRenderer == t.hasArcRenderer
  {
    t.(throwables := t.throwables + [obj])
  }

  /** ThrowNext: the first queued object is thrown and the arc reset; callers
      must make sure the queue is not empty. */
  function ThrowNext(t: Thrower): (s: Step)
    requires |t.throwables| > 0
    ensures [t.throwables[0]] + s.thrower.throwables == t.throwables
    ensures s.effects == [Throw(t.throwables[0]), RenderArc(0.0)]
    ensures s.thrower == t.(throwables := t.throwables[1..])
  {
    Step(t.(throwables := t.throwables[1..]), [Throw(t.throwables[0]), RenderArc(0.0)])
  }

  /** The arc angle for a running time: PingPong over the angle range, offset
      by the minimum angle. The angle rises with the time from the minimum to
      the maximum and falls back again; an inverted range pins it at twice the
      maximum less the minimum. An empty range (a non-number in the engine)
      yields the minimum angle. */
  function ArcAngle(time: real, cfg: Config): (angle: real)
    ensures cfg.minThrowAngle <= cfg.maxThrowAngle ==> cfg.minThrowAngle <= angle <= cfg.maxThrowAngle
    ensures var range := cfg.maxThrowAngle - cfg.minThrowAngle;
            range > 0.0 && 0.0 <= time <= range ==> angle == cfg.minThrowAngle + time
    ensures var range := cfg.maxThrowAngle - cfg.minThrowAngle;
            range > 0.0 && range <= time < range * 2.0 ==> angle == cfg.maxThrowAngle * 2.0 - cfg.minThrowAngle - time
    ensures cfg.maxThrowAngle < cfg.minThrowAngle ==> angle == cfg.maxThrowAngle * 2.0 - cfg.minThrowAngle
  {
    var range := cfg.maxThrowAngle - cfg.minThrowAngle;
    if range != 0.0 then PingPong(time, range) + cfg.minThrowAngle else cfg.minThrowAngle
  }

  /** The time after which the arc angle repeats: twice the angle range. */
  function ArcPeriod(cfg: Config): real {
    (cfg.maxThrowAngle - cfg.minThrowAngle) * 2.0
  }

  /** The arc angle swings with a period of twice the angle range, so a hold
      started late in the game sweeps the same angles as one started within
      the first period. */
  lemma ArcAnglePeriodic(time: real, cfg: Config)
    requires cfg.minThrowAngle < cfg.maxThrowAngle
    ensures ArcAngle(time + ArcPeriod(cfg), cfg) == ArcAngle(time, cfg)
  {
    var range := cfg.maxThrowAngle - cfg.minThrowAngle;
    PingPongShift(time, range);
  }

  /** Any whole number of periods later the arc angle is the same: a hold
      started at any game time sweeps the angles of the first period. */
  lemma ArcAngleRepeats(time: real, cfg: Config, n: nat)
    requires cfg.minThrowAngle < cfg.maxThrowAngle
    ensures ArcAngle(Shifted(time, ArcPeriod(cfg), n), cfg) == ArcAngle(time, cfg)
  {
    PingPongPeriodic(time, cfg.maxThrowAngle - cfg.minThrowAngle, n);
  }

  /** HandleThrowInput for one frame, given the throw axis, the current time
      and the frame's delta time. */
  function HandleThrowInput(t: Thrower, cfg: Config, axis: real, time: real, deltaTime: real): (s: Step)
    // nothing at all without an arc renderer or without throwables
    ensures !t.hasArcRenderer || |t.throwables| == 0 ==> s == Step(t, [])
    // releasing the button after holding it throws exactly the first throwable
    ensures t.hasArcRenderer && |t.throwables| > 0 && Approximately(axis, 0.0) && t.isThrowing ==>
              s.thrower == t.(isThrowing := false, throwables := t.throwables[1..])
              && [t.throwables[0]] + s.thrower.throwables == t.throwables
              && s.effects == [Throw(t.throwables[0]), RenderArc(0.0)]
    // no button and no hold: nothing happens
    ensures Approximately(axis, 0.0) && !t.isThrowing ==> s == Step(t, [])
    // a fresh press starts the hold at the current time and throws nothing
    ensures t.hasArcRenderer && |t.throwables| > 0 && !Approximately(axis, 0.0) && !t.isThrowing ==>
              s == Step(t.(isThrowing := true, startThrowTime := time), [])
    // holding advances the angle time and redraws the arc at the advanced time's angle
    ensures t.hasArcRenderer && |t.throwables| > 0 && !Approximately(axis, 0.0) && t.isThrowing ==>
              && s.thrower == t.(startThrowTime := t.startThrowTime + cfg.angleIncreaseSpeed * deltaTime)
              && s.effects == [RenderArc(ArcAngle(t.startThrowTime + cfg.angleIncreaseSpeed * deltaTime, cfg))]
              && (cfg.minThrowAngle <= cfg.maxThrowAngle ==>
                    cfg.minThrowAngle <= s.effects[0].angle <= cfg.maxThrowAngle)
  {
    if !t.hasArcRenderer || |t.throwables| == 0 then Step(t, [])
    else if Approximately(axis, 0.0) then
      if t.isThrowing then ThrowNext(t.(isThrowing := false)) else Step(t, [])
    else if t.isThrowing then
      var time' := t.startThrowTime + cfg.angleIncreaseSpeed * deltaTime;
      Step(t.(startThrowTime := time'), [RenderArc(ArcAngle(time', cfg))])
    else
      Step(t.(isThrowing := true, startThrowTime := time), [])
  }

  /** A press lasting at least one held frame, then a release, throws exactly
      the first queued object and leaves the rest of the queue in order. */
  lemma PressHoldReleaseThrowsOne(t: Thrower, cfg: Config, held: real, time: real, dt: real)
    requires t.hasArcRenderer && |t.throwables| > 0 && !t.isThrowing
    requires !Approximately(held, 0.0)
    ensures var s1 := HandleThrowInput(t, cfg, held, time, dt);
            var s2 := HandleThrowInput(s1.thrower, cfg, held, time + dt, dt);
            var s3 := HandleThrowInput(s2.thrower, cfg, 0.0, time + dt + dt, dt);
            && s1.effects + s2.effects + s3.effects == [RenderArc(s2.effects[0].angle), Throw(t.throwables[0]), RenderArc(0.0)]
            && s3.thrower.throwables == t.throwables[1..]
            && !s3.thrower.isThrowing
  {
    ApproximatelyZero(0.0);
  }

  // ---------------------------------------------------------------------------
  // Runs of frames and pick-ups: the queue is first-in first-out

  datatype Event =
    | PickUp(obj: ObjectId)
    | Frame(axis: real, time: real, deltaTime: real)

  function Apply(t: Thrower, cfg: Config, e: Event): Step {
    match e
    case PickUp(o) => Step(AddThrowable(t, o), [])
    case Frame(axis, time, dt) => HandleThrowInput(t, cfg, axis, time, dt)
  }

  /** The final thrower and every effect, in order. */
  function Run(t: Thrower, cfg: Config, events: seq<Event>): Step
    decreases |events|
  {
    if |events| == 0 then Step(t, [])
    else
      var first := Apply(t, cfg, events[0]);
      var rest := Run(first.thrower, cfg, events[1..]);
      Step(rest.thrower, first.effects + rest.effects)
  }

  /** The objects a list of effects dequeues for throwing, in order. */
  function Thrown(effects: seq<Effect>): (objs: seq<ObjectId>)
    ensures |objs| <= |effects|
  {
    if |effects| == 0 then []
    else (if effects[0].Throw? then [effects[0].obj] else []) + Thrown(effects[1..])
  }

  /** The objects picked up during a run, in order. */
  function PickedUp(events: seq<Event>): seq<ObjectId> {
    if |events| == 0 then []
    else (if events[0].PickUp? then [events[0].obj] else []) + PickedUp(events[1..])
  }

  lemma ThrownAppend(a: seq<Effect>, b: seq<Effect>)
    ensures Thrown(a + b) == Thrown(a) + Thrown(b)
  {
    if |a| == 0 {
      assert a + b == b;
    } else {
      assert (a + b)[0] == a[0];
      assert (a + b)[1..] == a[1..] + b;
      ThrownAppend(a[1..], b);
    }
  }

  /** One event: what it throws, followed by the queue after it, is the queue
      before it followed by what it picks up. */
  lemma ApplyIsFifo(t: Thrower, cfg: Config, e: Event)
    ensures Thrown(Apply(t, cfg, e).effects) + Apply(t, cfg, e).thrower.throwables
            == t.throwables + (if e.PickUp? then [e.obj] else [])
  {
    var s := Apply(t, cfg, e);
    if e.Frame? && |s.effects| == 2 {
      assert Thrown(s.effects) == [t.throwables[0]] by {
        assert s.effects[1..][1..] == [];
      }
    } else if e.Frame? && |s.effects| == 1 {
      assert Thrown(s.effects) == [];
    }
  }

  /** Throwables leave in the order they were picked up: over any run, the
      objects thrown followed by those still carried are exactly the objects
      carried at the start followed by those picked up. */
  lemma {:induction false} RunIsFifo(t: Thrower, cfg: Config, events: seq<Event>)
    ensures Thrown(Run(t, cfg, events).effects) + Run(t, cfg, events).thrower.throwables
            == t.throwables + PickedUp(events)
    decreases |events|
  {
    if |events| > 0 {
      var first := Apply(t, cfg, events[0]);
      var rest := Run(first.thrower, cfg, events[1..]);
      ApplyIsFifo(t, cfg, events[0]);
      RunIsFifo(first.thrower, cfg, events[1..]);
      ThrownAppend(first.effects, rest.effects);
      var picked := if events[0].PickUp? then [events[0].obj] else [];
      assert PickedUp(events) == picked + PickedUp(events[1..]);
      assert Run(t, cfg, events) == Step(rest.thrower, first.effects + rest.effects);
      Regroup(Thrown(first.effects), first.thrower.throwables, Thrown(rest.effects), rest.thrower.throwables,
              t.throwables, picked, PickedUp(events[1..]));
    }
  }

  /** Chaining two FIFO steps. */
  lemma Regroup(out1: seq<ObjectId>, q1: seq<ObjectId>, out2: seq<ObjectId>, q2: seq<ObjectId>,
                q0: seq<ObjectId>, in1: seq<ObjectId>, in2: seq<ObjectId>)
    requires out1 + q1 == q0 + in1
    requires out2 + q2 == q1 + in2
    ensures (out1 + out2) + q2 == q0 + (in1 + in2)
  {
    calc {
      (out1 + out2) + q2;
      out1 + (out2 + q2);
      out1 + (q1 + in2);
      (out1 + q1) + in2;
      (q0 + in1) + in2;
    }
  }

  // ---------------------------------------------------------------------------
  // Awakeness and throw velocity

  /** The result of the closest-enemy search: a squared distance, or infinity
      when there is no enemy. */
  datatype EnemyDistance = SquaredDistance(sq: real) | NoEnemy

  /** The increase multiplier of FixedUpdate: only an enemy strictly inside the
      danger radius (compared against the squared distance) produces one. */
  function AwakenessMultiplier(d: EnemyDistance, dangerRadius: real): (m: Option<real>)
    requires d.SquaredDistance? ==> d.sq >= 0.0
    ensures m.Some? <==> d.SquaredDistance? && d.sq < dangerRadius
    ensures m.Some? ==> 0.0 < m.value <= 1.0
    ensures m.Some? ==> (m.value == 1.0 <==> d.sq == 0.0)
  {
    if d.SquaredDistance? && d.sq < dangerRadius then
      ShareOfRadius(dangerRadius - d.sq, dangerRadius);
      Some((dangerRadius - d.sq) / dangerRadius)
    else None
  }

  /** A positive part of a positive whole is a share in (0, 1], and the whole
      share only for the whole. */
  lemma ShareOfRadius(part: real, whole: real)
    requires 0.0 < part <= whole
    ensures 0.0 < part / whole <= 1.0
    ensures part / whole == 1.0 <==> part == whole
  {
    var q := part / whole;
    assert q * whole == part;
  }

  /** The multiplier falls linearly with the squared distance: it is
      1 - d / dangerRadius inside the radius. */
  lemma MultiplierLinear(d1: real, d2: real, dangerRadius: real)
    requires 0.0 <= d1 < dangerRadius && 0.0 <= d2 < dangerRadius
    ensures AwakenessMultiplier(SquaredDistance(d1), dangerRadius).value
            - AwakenessMultiplier(SquaredDistance(d2), dangerRadius).value == (d2 - d1) / dangerRadius
  {
    var m1 := (dangerRadius - d1) / dangerRadius;
    var m2 := (dangerRadius - d2) / dangerRadius;
    assert m1 - m2 == (d2 - d1) / dangerRadius;
  }

  /** A nearer enemy never yields a smaller multiplier. */
  lemma NearerEnemyMoreAwake(d1: real, d2: real, dangerRadius: real)
    requires 0.0 <= d1 <= d2 < dangerRadius
    ensures AwakenessMultiplier(SquaredDistance(d2), dangerRadius).value
            <= AwakenessMultiplier(SquaredDistance(d1), dangerRadius).value
  {
    var m1 := (dangerRadius - d1) / dangerRadius;
    var m2 := (dangerRadius - d2) / dangerRadius;
    assert m1 - m2 == (d2 - d1) / dangerRadius;
  }

  /** A stamina request started by FixedUpdate. */
  datatype Request = Decrease(percent: real) | Increase(percent: real)

  /** FixedUpdate: always one decrease by `awakenessDecrease`, then an increase
      scaled by the multiplier when an enemy is inside the danger radius. */
  function FixedUpdate(d: EnemyDistance, cfg: Config): (rs: seq<Request>)
    requires d.SquaredDistance? ==> d.sq >= 0.0
    ensures 1 <= |rs| <= 2 && rs[0] == Decrease(cfg.awakenessDecrease)
    ensures |rs| == 2 <==> d.SquaredDistance? && d.sq < cfg.dangerRadius
    ensures |rs| == 2 ==> rs[1] == Increase(cfg.awakenessIncrease * AwakenessMultiplier(d, cfg.dangerRadius).value)
    ensures |rs| == 2 && cfg.awakenessIncrease >= 0.0 ==> 0.0 <= rs[1].percent <= cfg.awakenessIncrease
  {
    var m := AwakenessMultiplier(d, cfg.dangerRadius);
    if m.None? then [Decrease(cfg.awakenessDecrease)]
    else
      ScaleBounds(cfg.awakenessIncrease, m.value);
      var rs := [Decrease(cfg.awakenessDecrease), Increase(cfg.awakenessIncrease * m.value)];
      assert rs[1] == Increase(cfg.awakenessIncrease * m.value);
      rs
  }

  /** UpdateThrowVelocity: the launch velocity interpolates between the
      minimum and maximum by the fill's share of StaminaMax. */
  function ThrowVelocity(fill: real, cfg: Config): (v: real)
    ensures fill <= 0.0 ==> v == cfg.minThrowVelocity
    ensures fill >= Stamina.StaminaMax ==> v == cfg.maxThrowVelocity
    ensures cfg.minThrowVelocity <= cfg.maxThrowVelocity ==> cfg.minThrowVelocity <= v <= cfg.maxThrowVelocity
  {
    Lerp(cfg.minThrowVelocity, cfg.maxThrowVelocity, fill / Stamina.StaminaMax)
  }

  /** Between empty and full stamina the velocity grows in proportion to the
      fill: the change in velocity is the velocity span times the change in
      the fill's share of StaminaMax. */
  lemma ThrowVelocityProportional(fill1: real, fill2: real, cfg: Config)
    requires 0.0 <= fill1 <= Stamina.StaminaMax && 0.0 <= fill2 <= Stamina.StaminaMax
    ensures ThrowVelocity(fill2, cfg) - ThrowVelocity(fill1, cfg)
            == (cfg.maxThrowVelocity - cfg.minThrowVelocity) * ((fill2 - fill1) / Stamina.StaminaMax)
  {
    LerpProportional(cfg.minThrowVelocity, cfg.maxThrowVelocity, fill1 / Stamina.StaminaMax, fill2 / Stamina.StaminaMax);
  }

  /** More stamina never lowers the throw velocity. */
  lemma ThrowVelocityMonotone(fill1: real, fill2: real, cfg: Config)
    requires fill1 <= fill2 && cfg.minThrowVelocity <= cfg.maxThrowVelocity
    ensures ThrowVelocity(fill1, cfg) <= ThrowVelocity(fill2, cfg)
  {
    LerpMonotone(cfg.minThrowVelocity, cfg.maxThrowVelocity, fill1 / Stamina.StaminaMax, fill2 / Stamina.StaminaMax);
  }
}

=== FILE: progress.dfy ===
/** The progress registry: which stamp collectibles are unlocked, which bingo
    balls are unlocked, and the status of each started mission. */
module Progress {
  import opened Wrappers
  import opened Engine
  import opened Lists

  type StampId = ObjectId
  type BallId = ObjectId
  type MissionId = ObjectId

  datatype MissionStatus = Started | Completed | Closed

  /** The registry's state once the game has started. */
  datatype Registry = Registry(
    stamps: map<StampId, bool>,               // unlock flag of every known stamp
    balls: map<BallId, bool>,                 // unlock flag of every known bingo ball
    missions: map<MissionId, MissionStatus>,  // status of every added mission
    allStampsUnlocked: bool)                  // latched when the last stamp is unlocked

  /** The stamps that are unlocked. */
  ghost function UnlockedSet(r: Registry): set<StampId> {
    set k | k in r.stamps && r.stamps[k]
  }

  /** Start: every configured stamp is registered as locked, in list order; a
      repeated stamp makes the dictionary insertion fail. The bingo-ball list
      is never read, so the ball map starts (and stays) empty. */
  method Start(stampCollectibles: seq<StampId>, bingoBallCollectibles: seq<BallId>) returns (r: Result<Registry>)
    ensures r.Failure? <==> !Distinct(stampCollectibles)
    ensures r.Failure? ==> r.error == DuplicateKey
    ensures r.Success? ==> forall k :: k in r.value.stamps <==> k in stampCollectibles
    ensures r.Success? ==> forall k | k in r.value.stamps :: !r.value.stamps[k]
    ensures r.Success? ==> r.value.balls == map[] && r.value.missions == map[]
    ensures r.Success? ==> !r.value.allStampsUnlocked && Inv(r.value)
  {
    var stamps: map<StampId, bool> := map[];
    var i := 0;
    while i < |stampCollectibles|
      invariant 0 <= i <= |stampCollectibles|
      invariant Distinct(stampCollectibles[..i])
      invariant forall k :: k in stamps <==> k in stampCollectibles[..i]
      invariant forall k | k in stamps :: !stamps[k]
    {
      var stamp := stampCollectibles[i];
      if stamp in stamps {
        var j :| 0 <= j < i && stampCollectibles[..i][j] == stamp;
        assert stampCollectibles[j] == stampCollectibles[i];
        return Failure(DuplicateKey);
      }
      stamps := stamps[stamp := false];
      assert stampCollectibles[..i + 1] == stampCollectibles[..i] + [stamp];
      i := i + 1;
    }
    assert stampCollectibles[..i] == stampCollectibles;
    r := Success(Registry(stamps, map[], map[], false));
  }

  /** HasUnlockedAllStamps: no stamp is still locked. */
  function HasUnlockedAllStamps(r: Registry): (b: bool)
    ensures b <==> forall k | k in r.stamps :: r.stamps[k]
  {
    false !in r.stamps.Values
  }

  /** UnlockStampCollectible: an unknown stamp is reported and ignored; a known
      one is set unlocked, and the "all unlocked" flag latches once every stamp is. */
  function UnlockStamp(r: Registry, stamp: StampId): (r': Registry)
    ensures stamp !in r.stamps ==> r' == r
    ensures r'.stamps.Keys == r.stamps.Keys
    ensures stamp in r.stamps ==> r'.stamps[stamp]
    ensures forall k | k in r.stamps && k != stamp :: r'.stamps[k] == r.stamps[k]
    ensures r'.balls == r.balls && r'.missions == r.missions
    ensures r'.allStampsUnlocked <==> r.allStampsUnlocked || (stamp in r.stamps && HasUnlockedAllStamps(r'))
  {
    if stamp !in r.stamps then r
    else
      var unlocked := r.(stamps := r.stamps[stamp := true]);
      if HasUnlockedAllStamps(unlocked) then unlocked.(allStampsUnlocked := true) else unlocked
  }

  /** GetUnlockedStamps: walks the dictionary and collects each unlocked stamp once. */
  method GetUnlockedStamps(r: Registry) returns (available: seq<StampId>)
    ensures forall k :: k in available <==> k in r.stamps && r.stamps[k]
    ensures Distinct(available)
  {
    available := [];
    var remaining := r.stamps.Keys;
    while remaining != {}
      invariant remaining <= r.stamps.Keys
      invariant forall k :: k in available <==> k in r.stamps.Keys - remaining && r.stamps[k]
      invariant Distinct(available)
      decreases remaining
    {
      var k :| k in remaining;
      if r.stamps[k] {
        available := available + [k];
      }
      remaining := remaining - {k};
    }
  }

  /** UnlockBingoBallCollectible: an unknown ball is reported and ignored. */
  function UnlockBall(r: Registry, ball: BallId): (r': Registry)
    ensures ball !in r.balls ==> r' == r
    ensures ball in r.balls ==> r'.balls.Keys == r.balls.Keys && r'.balls[ball]
    ensures forall k | k in r.balls && k != ball :: k in r'.balls && r'.balls[k] == r.balls[k]
    ensures r'.stamps == r.stamps && r'.missions == r.missions && r'.allStampsUnlocked == r.allStampsUnlocked
  {
    if ball !in r.balls then r else r.(balls := r.balls[ball := true])
  }

  /** HasUnlockedBingoBall: an unknown ball is reported and counts as locked. */
  function HasUnlockedBall(r: Registry, ball: BallId): (b: bool)
    ensures b <==> ball in r.balls && r.balls[ball]
  {
    if ball !in r.balls then false else r.balls[ball]
  }

  /** AddMission: registers a new mission as started; adding it twice fails. */
  function AddMission(r: Registry, mission: MissionId): (res: Result<Registry>)
    ensures res.Failure? <==> mission in r.missions
    ensures res.Failure? ==> res.error == DuplicateKey
    ensures res.Success? ==> res.value.missions.Keys == r.missions.Keys + {mission}
    ensures res.Success? ==> res.value.missions[mission] == Started
    ensures res.Success? ==> forall m | m in r.missions :: res.value.missions[m] == r.missions[m]
    ensures res.Success? ==> res.value.stamps == r.stamps && res.value.balls == r.balls
    ensures res.Success? ==> res.value.allStampsUnlocked == r.allStampsUnlocked
  {
    if mission in r.missions then Failure(DuplicateKey)
    else Success(r.(missions := r.missions[mission := Started]))
  }

  /** UpdateMissionStatus: an unknown mission is reported and ignored. */
  function UpdateMissionStatus(r: Registry, mission: MissionId, status: MissionStatus): (r': Registry)
    ensures mission !in r.missions ==> r' == r
    ensures r'.missions.Keys == r.missions.Keys
    ensures mission in r.missions ==> r'.missions[mission] == status
    ensures forall m | m in r.missions && m != mission :: r'.missions[m] == r.missions[m]
    ensures r'.stamps == r.stamps && r'.balls == r.balls && r'.allStampsUnlocked == r.allStampsUnlocked
  {
    if mission !in r.missions then r else r.(missions := r.missions[mission := status])
  }

  /** GetMissionStatus: the dictionary lookup fails for an unknown mission. */
  function GetMissionStatus(r: Registry, mission: MissionId): (res: Result<MissionStatus>)
    ensures res.Success? <==> mission in r.missions
    ensures res.Failure? ==> res.error == KeyNotFound
    ensures res.Success? ==> res.value == r.missions[mission]
  {
    if mission in r.missions then Success(r.missions[mission]) else Failure(KeyNotFound)
  }

  // ---------------------------------------------------------------------------
  // Properties relating the operations

  /** Unlocking a stamp twice is the same as unlocking it once. */
  lemma UnlockStampIdempotent(r: Registry, stamp: StampId)
    ensures UnlockStamp(UnlockStamp(r, stamp), stamp) == UnlockStamp(r, stamp)
  {
    var r1 := UnlockStamp(r, stamp);
    if stamp in r.stamps {
      assert r1.stamps[stamp := true] == r1.stamps;
    }
  }

  /** Unlocking a known stamp adds exactly that stamp to the unlocked set;
      unlocking an unknown one adds nothing. */
  lemma UnlockStampGrowsUnlockedSet(r: Registry, stamp: StampId)
    ensures stamp in r.stamps ==> UnlockedSet(UnlockStamp(r, stamp)) == UnlockedSet(r) + {stamp}
    ensures stamp !in r.stamps ==> UnlockedSet(UnlockStamp(r, stamp)) == UnlockedSet(r)
  {
  }

  /** "All stamps unlocked" means the unlocked set covers every known stamp. */
  lemma AllUnlockedIffUnlockedSetIsEverything(r: Registry)
    ensures HasUnlockedAllStamps(r) <==> UnlockedSet(r) == r.stamps.Keys
  {
    if UnlockedSet(r) == r.stamps.Keys {
      forall k | k in r.stamps ensures r.stamps[k] {
        assert k in UnlockedSet(r);
      }
    }
  }

  /** Reading a mission back after adding or updating it. */
  lemma MissionReadBack(r: Registry, mission: MissionId, other: MissionId, status: MissionStatus)
    ensures mission !in r.missions ==> GetMissionStatus(AddMission(r, mission).value, mission) == Success(Started)
    ensures mission in r.missions ==> GetMissionStatus(UpdateMissionStatus(r, mission, status), mission) == Success(status)
    ensures other != mission ==> GetMissionStatus(UpdateMissionStatus(r, mission, status), other) == GetMissionStatus(r, other)
  {
  }

  // ---------------------------------------------------------------------------
  // Runs of operations after Start

  datatype Op =
    | UnlockStampOp(stamp: StampId)
    | UnlockBallOp(ball: BallId)
    | AddMissionOp(mission: MissionId)
    | UpdateMissionOp(mission: MissionId, status: MissionStatus)

  /** One call on the registry; a failing AddMission throws before changing anything. */
  function Apply(r: Registry, op: Op): Registry {
    match op
    case UnlockStampOp(s) => UnlockStamp(r, s)
    case UnlockBallOp(b) => UnlockBall(r, b)
    case AddMissionOp(m) => (match AddMission(r, m) case Success(r') => r' case Failure(_) => r)
    case UpdateMissionOp(m, st) => UpdateMissionStatus(r, m, st)
  }

  function Run(r: Registry, ops: seq<Op>): Registry
    decreases |ops|
  {
    if |ops| == 0 then r else Run(Apply(r, ops[0]), ops[1..])
  }

  /** What holds of every registry reachable from Start: the latched flag is
      never ahead of the truth, and the ball map is empty. */
  ghost predicate Inv(r: Registry) {
    && (r.allStampsUnlocked ==> HasUnlockedAllStamps(r))
    && r.balls == map[]
  }

  /** How a later registry relates to an earlier one: the same stamps are known,
      no stamp is relocked, the flag never falls, and no mission disappears. */
  ghost predicate Progressed(r: Registry, r': Registry) {
    && r'.stamps.Keys == r.stamps.Keys
    && (forall k | k in r.stamps && r.stamps[k] :: r'.stamps[k])
    && (r.allStampsUnlocked ==> r'.allStampsUnlocked)
    && r.missions.Keys <= r'.missions.Keys
  }

  lemma ApplyStep(r: Registry, op: Op)
    requires Inv(r)
    ensures Inv(Apply(r, op))
    ensures Progressed(r, Apply(r, op))
  {
  }

  /** Every run keeps the invariant and only makes progress. */
  lemma {:induction false} RunProgresses(r: Registry, ops: seq<Op>)
    requires Inv(r)
    ensures Inv(Run(r, ops))
    ensures Progressed(r, Run(r, ops))
    decreases |ops|
  {
    if |ops| > 0 {
      ApplyStep(r, ops[0]);
      RunProgresses(Apply(r, ops[0]), ops[1..]);
    }
  }

  /** Bingo balls can never be unlocked: after any run from Start, unlocking a
      ball changes nothing and every ball reads as locked. */
  lemma {:induction false} BallsNeverUnlock(r: Registry, ops: seq<Op>, ball: BallId)
    requires Inv(r)
    ensures UnlockBall(Run(r, ops), ball) == Run(r, ops)
    ensures !HasUnlockedBall(Run(r, ops), ball)
    decreases |ops|
  {
    RunProgresses(r, ops);
  }
}

=== FILE: spawner.dfy ===
/** The interactable auto-spawner: a pool of spawned objects in which every
    object whose interaction ends is replaced by a freshly spawned one. */
module AutoSpawner {
  import opened Engine
  import opened Lists
  import Interactables

  /** The spawned objects in spawn order, and the identity the next spawn gets
      (each instantiation creates a new scene object). */
  datatype Pool = Pool(live: seq<ObjectId>, next: ObjectId)

  /** Every tracked object is distinct and was spawned before `next`. */
  ghost predicate Wf(p: Pool) {
    && Distinct(p.live)
    && forall i | 0 <= i < |p.live| :: p.live[i] < p.next
  }

  /** SpawnInteractable followed by List.Add: a new object joins the end. */
  function SpawnOne(p: Pool): (p': Pool)
    ensures p'.live == p.live + [p.next]
    ensures Wf(p) ==> Wf(p') && p.next !in p.live
  {
    Pool(p.live + [p.next], p.next + 1)
  }

  /** Start: spawns `spawnCount` objects; a non-positive count spawns none. */
  method Start(spawnCount: int) returns (p: Pool)
    ensures Wf(p)
    ensures |p.live| == if spawnCount <= 0 then 0 else spawnCount
  {
    p := Pool([], 0);
    var i := 0;
    while i < spawnCount
      invariant Wf(p)
      invariant 0 <= i && (spawnCount > 0 ==> i <= spawnCount) && (spawnCount <= 0 ==> i == 0)
      invariant |p.live| == i
    {
      p := SpawnOne(p);
      i := i + 1;
    }
  }

  /** OnInteractEnd: a tracked source is removed and one new object appended;
      an untracked source changes nothing. */
  function OnInteractEnd(p: Pool, source: ObjectId): (p': Pool)
    ensures |p'.live| == |p.live|
    ensures source !in p.live ==> p' == p
    ensures source in p.live ==> p'.live[..|p'.live| - 1] == Remove(p.live, source)
    ensures Wf(p) ==> Wf(p')
    ensures Wf(p) && source in p.live ==> source !in p'.live && p'.live[|p'.live| - 1] !in p.live
  {
    if source !in p.live then p
    else
      var rest := Pool(Remove(p.live, source), p.next);
      RemoveKeepsWf(p, source);
      var p' := SpawnOne(rest);
      assert p'.live[..|p'.live| - 1] == rest.live;
      p'
  }

  /** Taking a tracked object out of a well-formed pool leaves it well formed
      and without that object. */
  lemma RemoveKeepsWf(p: Pool, source: ObjectId)
    ensures Wf(p) ==> Wf(Pool(Remove(p.live, source), p.next)) && source !in Remove(p.live, source)
  {
    if Wf(p) {
      var rest := Remove(p.live, source);
      RemoveDistinct(p.live, source);
      forall i | 0 <= i < |rest| ensures rest[i] < p.next {
        assert rest[i] in multiset(p.live);
      }
    }
  }

  /** One frame of a spawned interactable `obj` in state `s`: the spawner is
      subscribed to its OnInteractEnd, so an interaction that ends replaces it.
      Only an interactable the player is standing at can cause a replacement. */
  function InteractFrame(p: Pool, obj: ObjectId, s: Interactables.Interactable, cameraActive: bool, interactPressed: bool): (p': Pool)
    ensures p' != p ==> s.on && cameraActive && interactPressed && obj in p.live
    ensures s.on && cameraActive && interactPressed ==> p' == OnInteractEnd(p, obj)
    ensures |p'.live| == |p.live|
  {
    if Interactables.InteractEnd in Interactables.Update(s, cameraActive, interactPressed) then OnInteractEnd(p, obj) else p
  }

  /** Interaction ends, one event per source. */
  function Run(p: Pool, sources: seq<ObjectId>): (p': Pool)
    ensures Wf(p) ==> Wf(p')
    decreases |sources|
  {
    if |sources| == 0 then p else Run(OnInteractEnd(p, sources[0]), sources[1..])
  }

  /** The pool keeps its size over any sequence of interaction ends. */
  lemma {:induction false} RunKeepsSize(p: Pool, sources: seq<ObjectId>)
    ensures |Run(p, sources).live| == |p.live|
    decreases |sources|
  {
    if |sources| > 0 {
      RunKeepsSize(OnInteractEnd(p, sources[0]), sources[1..]);
    }
  }

  /** Objects only ever leave the pool through an interaction end: a tracked
      object that no event names is still tracked afterwards. */
  lemma {:induction false} RunKeepsUntouched(p: Pool, sources: seq<ObjectId>, obj: ObjectId)
    requires Wf(p)
    requires obj in p.live && obj !in sources
    ensures obj in Run(p, sources).live
    decreases |sources|
  {
    if |sources| > 0 {
      var q := OnInteractEnd(p, sources[0]);
      if sources[0] in p.live {
        RemoveDistinct(p.live, sources[0]);
        assert obj in q.live[..|q.live| - 1];
      }
      RunKeepsUntouched(q, sources[1..], obj);
    }
  }
}

=== FILE: stamina.dfy ===
/** The stamina (awakeness) bar: a fill amount in [0, StaminaMax] that
    increase and decrease requests move towards a goal in fixed-size steps,
    reporting every new fill to subscribers. */
module Stamina {
  import opened Mathf

  const StaminaMax: real := 1.0

  /** Awake empties the bar. */
  const InitialFill: real := 0.0

  /** The bar's fill and every value reported through OnChange so far. */
  datatype Bar = Bar(fill: real, reported: seq<real>)

  /** The arguments handed to the stepping loop: how much to change in total
      and the signed change per second. */
  datatype Plan = Plan(difference: real, speed: real)

  function InitialBar(): (b: Bar)
    ensures b.fill == 0.0 && b.reported == []
  {
    Bar(InitialFill, [])
  }

  /** DecreaseStaminaBy: the goal is the fill lowered by the clamped percent,
      but never below zero; the loop moves down at `changePerSecond`. */
  function DecreaseStaminaBy(fill: real, percent: real, changePerSecond: real): (p: Plan)
    ensures p.speed == -changePerSecond
    ensures fill - p.difference >= 0.0
    ensures fill - p.difference == 0.0 || p.difference == Clamp(percent, 0.0, StaminaMax)
    ensures fill >= 0.0 ==> 0.0 <= p.difference <= fill && p.difference <= Clamp(percent, 0.0, StaminaMax)
    ensures fill >= 0.0 && percent <= 0.0 ==> p.difference == 0.0
  {
    var decreaseBy := Clamp(percent, 0.0, StaminaMax) * StaminaMax;
    var goal := Max(0.0, fill - decreaseBy);
    Plan(fill - goal, -changePerSecond)
  }

  /** IncreaseStaminaBy with an explicit speed: the goal is the fill raised by
      the clamped percent, but never above StaminaMax. */
  function IncreaseStaminaByAt(fill: real, percent: real, speed: real): (p: Plan)
    ensures p.speed == speed
    ensures fill + p.difference <= StaminaMax
    ensures fill + p.difference == StaminaMax || p.difference == Clamp(percent, 0.0, StaminaMax)
    ensures fill <= StaminaMax ==> 0.0 <= p.difference <= StaminaMax - fill && p.difference <= Clamp(percent, 0.0, StaminaMax)
    ensures fill <= StaminaMax && percent <= 0.0 ==> p.difference == 0.0
  {
    var increaseBy := Clamp(percent, 0.0, StaminaMax) * StaminaMax;
    var goal := Min(StaminaMax, fill + increaseBy);
    Plan(goal - fill, speed)
  }

  /** IncreaseStaminaBy with the bar's own speed. */
  function IncreaseStaminaBy(fill: real, percent: real, changePerSecond: real): (p: Plan)
    ensures p.speed == changePerSecond
    ensures forall speed :: p.difference == IncreaseStaminaByAt(fill, percent, speed).difference
  {
    IncreaseStaminaByAt(fill, percent, changePerSecond)
  }

  /** UpdateFillAmount: the new fill is stored and reported unchanged. */
  function UpdateFillAmount(bar: Bar, newFill: real): (bar': Bar)
    ensures bar'.fill == newFill
    ensures bar'.reported == bar.reported + [newFill]
  {
    Bar(newFill, bar.reported + [newFill])
  }

  /** A step count `k` whose total does not exceed `d` is at most the floor of d / a. */
  lemma StepsBelowFloor(k: nat, a: real, d: real)
    requires a > 0.0 && k as real * a <= d
    ensures k <= (d / a).Floor
  {
    assert k as real <= d / a by {
      assert (d / a) * a == d;
    }
  }

  /** The fills reported by `n` steps of size `change` starting from `fill`. */
  function Trajectory(fill: real, change: real, n: nat): (t: seq<real>)
    ensures |t| == n
  {
    seq(n, j requires 0 <= j < n => fill + (j + 1) as real * change)
  }

  /** Each reported fill is one step past the one before it, the first one
      step past the starting fill. */
  lemma TrajectoryStepsBy(fill: real, change: real, n: nat)
    ensures n > 0 ==> Trajectory(fill, change, n)[0] == fill + change
    ensures forall j | 0 < j < n :: Trajectory(fill, change, n)[j] - Trajectory(fill, change, n)[j - 1] == change
  {
    var t := Trajectory(fill, change, n);
    forall j | 0 < j < n
      ensures t[j] - t[j - 1] == change
    {
      OneMore(j, change);
    }
  }

  /** One more step appends the next fill to the trajectory. */
  lemma TrajectoryStep(fill: real, change: real, n: nat)
    ensures Trajectory(fill, change, n + 1) == Trajectory(fill, change, n) + [fill + n as real * change + change]
  {
    var t, t' := Trajectory(fill, change, n), Trajectory(fill, change, n + 1);
    assert (n + 1) as real * change == n as real * change + change;
    assert forall j | 0 <= j < n :: t'[j] == t[j];
    assert t'[n] == fill + n as real * change + change;
  }

  /** The stepping loop for a signed step `change`: keeps stepping while the
      accumulated absolute change is at most `difference`. */
  method StepWhileWithin(bar: Bar, difference: real, change: real) returns (bar': Bar, steps: nat)
    requires change != 0.0 || difference < 0.0
    ensures steps == 0 <==> difference < 0.0
    ensures steps as real * Abs(change) > difference
    ensures steps > 0 ==> (steps - 1) as real * Abs(change) <= difference
    ensures bar'.fill == bar.fill + steps as real * change
    ensures bar'.reported == bar.reported + Trajectory(bar.fill, change, steps)
  {
    var a := Abs(change);
    ghost var bound := if difference < 0.0 then 0 else (difference / a).Floor + 1;
    var currentSum := 0.0;
    bar' := bar;
    steps := 0;
    while currentSum <= difference
      invariant currentSum == steps as real * a
      invariant bar'.fill == bar.fill + steps as real * change
      invariant bar'.reported == bar.reported + Trajectory(bar.fill, change, steps)
      invariant steps > 0 ==> (steps - 1) as real * a <= difference
      invariant steps <= bound
      decreases bound - steps
    {
      StepsBelowFloor(steps, a, difference);
      TrajectoryStep(bar.fill, change, steps);
      OneMore(steps, a);
      OneMore(steps, change);
      bar' := UpdateFillAmount(bar', bar'.fill + change);
      currentSum := currentSum + a;
      steps := steps + 1;
    }
  }

  /** ChangeStaminaGeneral: steps of `speed * fixedDeltaTime` until the
      accumulated absolute change exceeds `difference`. It takes at least one
      step when the difference is zero and always ends past the goal, by at
      most one step; every step's fill is reported, the last one being the
      final fill. A zero step with a non-negative difference never finishes,
      so it is excluded. */
  method ChangeStaminaGeneral(bar: Bar, difference: real, speed: real, fixedDeltaTime: real)
    returns (bar': Bar, steps: nat)
    requires fixedDeltaTime > 0.0
    requires speed != 0.0 || difference < 0.0
    ensures steps == 0 <==> difference < 0.0
    ensures bar'.reported == bar.reported + Trajectory(bar.fill, speed * fixedDeltaTime, steps)
    ensures steps > 0 ==> bar'.reported[|bar'.reported| - 1] == bar'.fill
    ensures steps == 0 ==> bar' == bar
    ensures difference >= 0.0 && speed > 0.0 ==>
              bar.fill + difference < bar'.fill <= bar.fill + difference + speed * fixedDeltaTime
    ensures difference >= 0.0 && speed < 0.0 ==>
              bar.fill - difference + speed * fixedDeltaTime <= bar'.fill < bar.fill - difference
  {
    var change := speed * fixedDeltaTime;
    assert speed != 0.0 ==> change != 0.0;
    bar', steps := StepWhileWithin(bar, difference, change);
    if steps > 0 {
      assert bar'.reported[|bar'.reported| - 1] == Trajectory(bar.fill, change, steps)[steps - 1];
    }
    if difference >= 0.0 {
      OvershootsGoal(bar.fill, difference, speed, fixedDeltaTime, steps, bar'.fill);
    }
  }

  lemma OneMore(k: nat, x: real)
    ensures (k + 1) as real * x == k as real * x + x
  {
  }

  /** Increasing moves the fill strictly past the goal, by at most one step;
      decreasing moves it strictly below the goal, by at most one step. */
  lemma OvershootsGoal(fill: real, difference: real, speed: real, dt: real, steps: nat, final: real)
    requires dt > 0.0 && speed != 0.0 && difference >= 0.0
    requires steps as real * Abs(speed * dt) > difference
    requires steps > 0 ==> (steps - 1) as real * Abs(speed * dt) <= difference
    requires final == fill + steps as real * (speed * dt)
    ensures speed > 0.0 ==> fill + difference < final <= fill + difference + speed * dt
    ensures speed < 0.0 ==> fill - difference + speed * dt <= final < fill - difference
  {
    var c := speed * dt;
    assert steps > 0;
    if speed > 0.0 {
      assert c > 0.0;
      assert Abs(c) == c;
    } else {
      assert c < 0.0;
      assert Abs(c) == -c;
    }
  }
}

=== FILE: wrappers.dfy ===
/** Failure-carrying results for the collection operations the scripts rely on.
    The C# dictionary throws on a duplicate `Add` and on a missing-key lookup;
    the model returns `Failure` instead of throwing. */
module Wrappers {

  /** A value that may be missing (a C# null, or "not found"). */
  datatype Option<+T> = None | Some(value: T)

  /** The two dictionary exceptions the scripts can raise. */
  datatype Error =
    | DuplicateKey   // Dictionary.Add with a key already present
    | KeyNotFound    // Dictionary indexer with a key that is absent

  datatype Result<+T> = Success(value: T) | Failure(error: Error)
}
